=== FILE: README.md ===
# Order field of the course catalog, in Dafny

The course catalog (subjects, courses, modules and their contents) has one
piece of real logic: `OrderField`, a non-negative integer model field. Just
before a record is written, its `pre_save` hook does one of two things:

- If the record's order attribute is already set, it returns that value and
  leaves the record alone.
- Otherwise it collects the record's *scope* and assigns the result. The
  scope is the stored records of the same model that agree with the record
  on every attribute named in `for_fields`; with no `for_fields`, it is all
  stored records. The result is one more than the largest order in the
  scope, or 0 when the scope is empty. It is written into the record and
  also returned.

The model has three modules:

- `Wrappers` (`wrappers.dfy`): `Option` and `Result`.
- `Fields` (`fields.dfy`): the data model and the hook.
  - The stored table is a `seq<Record>`. A `Record` is an attribute map plus
    a `nat` order.
  - The record being saved is an `Instance`: the same map plus an
    `Option<nat>` order.
  - `OrderField` holds the optional `for_fields` list, which is all that
    `OrderField.__init__` stores.
  - `PreSave` is a pure function. It returns the updated instance and the
    value, or an `AttributeError`. The scope attributes are read in
    `for_fields` order, as the source's dict comprehension reads them, and
    the first one that cannot be read decides the outcome:
    - A name the instance has no attribute for raises `AttributeError`,
      which escapes the hook.
    - An unset required relation (the value `Unset`) raises `DoesNotExist`.
      The hook catches it and returns 0.
  - The query is modelled step by step: `BuildQuery` builds the keyword
    filter, `Filter` applies it, `LatestOrder`/`MaxOrder` play the part of
    `latest`, and `NextOrder` adds one or falls back to 0.
  - Three specification-level notions are defined independently of that
    query:
    - `InScope`: a record is a sibling.
    - `ScopeOrders`: the siblings' orders.
    - `IsNextAfter`: the least integer above a set of orders.
  - `NextAfterScope` is a second, record-by-record reference definition.
    `PreSave`'s contract is stated in terms of these.
- `OrderLemmas` (`order_lemmas.dfy`): properties across calls.
  - `Save` writes the row with the hook's value and `SaveAll` saves records
    one after another.
  - The lemmas cover idempotence, scope isolation, the whole-table case, and
    consecutive numbering under repeated insertion.

## Model

| member | source | states |
|---|---|---|
| Fields.PreSave | educa/courses/fields.py:15-45 | An order already set is returned as-is and the instance is unchanged. With an unset order, the result is an AttributeError exactly when the first `for_fields` attribute that cannot be read is missing. The error names that attribute. If that first unreadable attribute is instead an unset relation, the result is Ok. In every other case the result is Ok too. The instance returned carries exactly the returned value as its order. That value exceeds every sibling's order, and it is 0 or one more than some sibling's order, so it is 0 exactly when there are no siblings. It equals the record-by-record reference `NextAfterScope`. |
| Fields.BuildQuery | educa/courses/fields.py:32-35 | The filter is built exactly when the instance can read every named attribute: each is present and none is an unset relation. Its keys are the named attributes and each value is the instance's own. Otherwise the error is raised by the first unreadable name in list order: AttributeError for a missing one, DoesNotExist for an unset relation. |
| Fields.Filter | educa/courses/fields.py:36 | Keeps exactly the stored records that satisfy every equality of the filter, and nothing else. It is empty exactly when no stored record matches. |
| Fields.MaxOrder | educa/courses/fields.py:38-39 | The result is the order of some record in the non-empty set and is at least every record's order. |
| Fields.LatestOrder | educa/courses/fields.py:38-41 | Nothing is found exactly when the set is empty, the case where `latest` raises ObjectDoesNotExist. Otherwise the result is the maximum order. |
| Fields.NextOrder | educa/courses/fields.py:37-41 | The value is above every order in the scope, and it is 0 or one more than some order in the scope. It is 0 exactly when the scope is empty. |
| Fields.Scope | educa/courses/fields.py:28-36 | The query succeeds exactly when the instance can read every scope attribute. It then holds every stored in-scope record and nothing else, and is empty exactly when no stored record is in scope. Otherwise the error is the one the first unreadable scope attribute raises, in `for_fields` order. |
| Fields.NextAfterScopeIsNext | educa/courses/fields.py:38-41 | The record-by-record reference value is the least integer above every sibling order. |
| OrderLemmas.Save | educa/courses/fields.py:42-43 | The row written carries the instance's attributes and the hook's value. An explicit order is written as given. An unset one gets the scope's next order. |
| OrderLemmas.AutoOrderIsFresh | educa/courses/fields.py:36-39 | An automatically assigned order is strictly greater than every sibling's order, so it never collides with one. |
| OrderLemmas.PreSaveIdempotent | educa/courses/fields.py:25-45 | Running the hook again on the instance it returned, against any table, gives the same instance and value: the attribute is no longer None. |
| OrderLemmas.SameSiblingOrdersSameResult | educa/courses/fields.py:29-39 | Two tables whose siblings hold the same set of orders give the same result: only in-scope records influence it. |
| OrderLemmas.OtherScopesIgnored | educa/courses/fields.py:29-36 | Adding records from other scopes before or after the table leaves the result unchanged. |
| OrderLemmas.OtherScopesChanged | educa/courses/fields.py:29-36 | Changing records that are outside the scope both before and after the change leaves the result unchanged. |
| OrderLemmas.NoScopeFieldsWholeTable | educa/courses/fields.py:28-29 | With `for_fields` omitted or empty, the query is the whole table and every record is a sibling. An automatic order is then above every stored order and is 0 exactly when the table is empty. |
| OrderLemmas.UnsetRelationGivesZero | educa/courses/fields.py:27-41 | Suppose the first scope attribute that cannot be read is an unset required relation. Then the query raises DoesNotExist and the hook catches it. The order is 0 whatever the table holds and whatever names follow. |
| OrderLemmas.UnsetBeforeMissingName | educa/courses/fields.py:27-41 | Take `for_fields` = course, then a name the instance lacks, with the course unset. The hook returns 0 and raises no AttributeError. |
| OrderLemmas.SameScopeSameSiblings | educa/courses/fields.py:32-36 | Instances that agree on the scope attributes have the same siblings, the same sibling orders and the same next order. |
| OrderLemmas.SaveNextSibling | educa/courses/fields.py:38-43 | Saving one more unordered sibling gives it the scope's next order k. The scope's next order becomes k + 1. |
| OrderLemmas.SaveAllNumbersConsecutively | educa/courses/fields.py:25-43 | Saving N unordered instances of one scope, one after another, succeeds. They get k, k+1, …, k+N-1, where k is the scope's next order, and the scope's next order becomes k+N. |
| OrderLemmas.SaveAllIntoEmptyScope | educa/courses/fields.py:38-43 | Into an empty scope, N unordered instances saved one after another get 0, 1, …, N-1. |
| OrderLemmas.ExplicitThenAuto | educa/courses/fields.py:25-45 | After a sibling is saved with an explicit order x, an unordered sibling gets more than x. It gets exactly x + 1 when x was at least every earlier sibling order: explicit 5 then automatic 6. |
| OrderLemmas.TwoScopesScenario | educa/courses/fields.py:28-43 | Scoped by `course`: two records for course 1 get 0 then 1, and a record then saved for course 2 gets 0. |
| OrderLemmas.RunElements | educa/courses/fields.py:38-43 | The run used to state consecutive numbering holds exactly k, k+1, …, k+n-1. |

## Left out

- The `add` flag of `pre_save` is not modelled: the computation ignores it.
- The database is not modelled.
  - `objects.all()`, `filter` and `latest` are modelled as pure functions over a sequence of records.
  - `latest`'s tie-breaking among records with the same maximal order is not modelled: only the maximum is used.
- A stored record that lacks a filtered attribute is treated as not matching. In the framework, every stored row of a model has the same columns. A `for_fields` name that is not a column makes `filter` raise an uncaught FieldError; the model returns the next order over no siblings instead.
- Reading an unset required relation raises the framework's `RelatedObjectDoesNotExist`. That is a subclass of both `AttributeError` and `ObjectDoesNotExist`. The model folds it into a single `DoesNotExist` error, which the hook catches as the `except` at line 40 does. A nullable relation left empty is `NullValue`, and the filter compares it with stored nulls.
- The consecutive-numbering lemmas (`SaveNextSibling`, `SaveAllNumbersConsecutively`, `SaveAllIntoEmptyScope`, `ExplicitThenAuto`) assume the instances' shared scope values are readable. With an unset required relation in the scope, the hook returns 0 for each such instance (`UnsetRelationGivesZero`). The write itself is then refused by the NOT NULL column, which the model does not represent.
- The order attribute's name (`attname`) is not a parameter. The order is a dedicated slot of `Record` and `Instance`, so `for_fields` naming the order attribute itself is not modelled.
- Explicit orders are `nat`. A negative explicit value is rejected by the database's positive-integer constraint, outside this hook.
- Save: models the hook's value and the row it would write, not the database accepting that row. A row whose required relation is unset is refused by the NOT NULL column, and an order above the backend's column bound (next line) is refused too. `Save` still reports `Ok` with that row appended.
- SaveAllNumbersConsecutively: orders are unbounded `nat`s, and the model does not bound them. Values up to 2147483647 are safe on every supported database. Above that, the bound depends on the backend: PostgreSQL's `integer` rejects the write, MySQL's `integer UNSIGNED` takes values up to 4294967295, and SQLite has no 32-bit limit. Python's `+ 1` cannot overflow, so the hook itself has no bound to model.
- The read-then-write race between concurrent inserts into one scope is not modelled: saves are sequential.
- Not modelled, because they are framework wiring with no logic of their own:
  - `educa/courses/views.py`: views, ownership mixins, formsets and templates.
  - `educa/courses/urls.py`: the routing table.
  - `educa/courses/models.py`: the declarative schema, including ordering metadata, cascade deletes, timestamps and the generic content relation.
- `educa/courses/models.py` attaches no `OrderField` to any model, so `TwoScopesScenario` uses a generic `course` scope attribute rather than a schema fact.

=== FILE: fields.dfy ===
/**
 * The order field of the course catalog: a non-negative integer column whose
 * value, when left unset on an instance being saved, is filled in as one more
 * than the largest order among the stored records of the same "scope" (the
 * stored records that agree with the instance on every `for_fields` name), or
 * 0 when that scope is empty.
 *
 * The table is a sequence of stored records; the save hook is the pure
 * function `PreSave`, returning the updated instance together with the value
 * handed to the persistence layer.
 */
module Fields {
  import opened Wrappers

  /** The name of a model attribute. */
  type FieldName = string

  /** The value an attribute holds; foreign keys are compared by primary key.
      `NullValue` is a None (a nullable relation left empty), which the
      filter compares as null. `Unset` is a required relation with no related
      object: reading it raises the framework's DoesNotExist. */
  datatype Value = NullValue | Unset | IntValue(i: int) | StrValue(s: string) | RefValue(pk: nat)

  /** A stored row: its attribute values and its (never null) order column. */
  datatype Record = Record(attrs: map<FieldName, Value>, order: nat)

  /** The in-memory instance about to be saved; its order may still be unset. */
  datatype Instance = Instance(attrs: map<FieldName, Value>, order: Option<nat>)

  /** An order field as constructed: the only configuration is `for_fields`,
      which may be omitted (None). */
  datatype OrderField = OrderField(forFields: Option<seq<FieldName>>)

  /** What reading a `for_fields` attribute can raise: AttributeError for a
      name the instance does not have, DoesNotExist for an unset required
      relation. The hook catches the second and lets the first escape. */
  datatype Error = AttributeError(name: FieldName) | DoesNotExist

  /** The names the scope filter uses; an omitted and an empty `for_fields`
      are both falsy, so both mean "no filter". */
  function ScopeFields(f: OrderField): seq<FieldName>
  {
    match f.forFields
    case None => []
    case Some(fs) => fs
  }

  // ---------------------------------------------------------------------------
  // Specification-level notions, independent of how the query is evaluated.
  // ---------------------------------------------------------------------------

  /** The instance carries every attribute its scope is defined by. */
  ghost predicate HasScopeFields(f: OrderField, inst: Instance)
  {
    forall k :: k in ScopeFields(f) ==> k in inst.attrs
  }

  /** Every name of `fs` before position `i` is an attribute the instance
      can read without raising. */
  ghost predicate ReadableBefore(fs: seq<FieldName>, inst: Instance, i: int)
  {
    forall j :: 0 <= j < i && j < |fs| ==> fs[j] in inst.attrs && inst.attrs[fs[j]] != Unset
  }

  /** Reading attribute `name` of the instance raises `e`. */
  ghost predicate Raises(inst: Instance, name: FieldName, e: Error)
  {
    match e
    case AttributeError(n) => n == name && name !in inst.attrs
    case DoesNotExist => name in inst.attrs && inst.attrs[name] == Unset
  }

  /** A stored record is a sibling of the instance: the instance can read
      every scope field, and the record agrees with it on each. */
  ghost predicate InScope(f: OrderField, inst: Instance, rec: Record)
  {
    forall k :: k in ScopeFields(f) ==>
      k in inst.attrs && inst.attrs[k] != Unset && k in rec.attrs && rec.attrs[k] == inst.attrs[k]
  }

  /** The orders held by the instance's siblings in the table. */
  ghost function ScopeOrders(f: OrderField, inst: Instance, stored: seq<Record>): set<nat>
    decreases |stored|
  {
    if |stored| == 0 then {}
    else
      var last := stored[|stored| - 1];
      ScopeOrders(f, inst, stored[..|stored| - 1]) + (if InScope(f, inst, last) then {last.order} else {})
  }

  /** The sibling orders are exactly the orders of the stored records in
      the instance's scope. */
  lemma {:induction false} ScopeOrdersMembers(f: OrderField, inst: Instance, stored: seq<Record>)
    ensures forall rec :: rec in stored && InScope(f, inst, rec) ==> rec.order in ScopeOrders(f, inst, stored)
    ensures forall o :: o in ScopeOrders(f, inst, stored) ==>
              exists rec :: rec in stored && InScope(f, inst, rec) && rec.order == o
    decreases |stored|
  {
    if |stored| > 0 {
      var init := stored[..|stored| - 1];
      ScopeOrdersMembers(f, inst, init);
      assert stored == init + [stored[|stored| - 1]];
    }
  }

  /** `v` is the least non-negative integer above every order in `orders`:
      0 for no orders, otherwise the maximum plus one. */
  ghost predicate IsNextAfter(orders: set<nat>, v: nat)
  {
    && (forall o :: o in orders ==> o < v)
    && (v == 0 || v - 1 in orders)
  }

  /** Reference definition of the order a new sibling receives, computed
      record by record: one more than the largest sibling order seen so
      far, 0 while no sibling has been seen. */
  ghost function NextAfterScope(f: OrderField, inst: Instance, stored: seq<Record>): nat
    decreases |stored|
  {
    if |stored| == 0 then 0
    else
      var last := stored[|stored| - 1];
      var prev := NextAfterScope(f, inst, stored[..|stored| - 1]);
      if InScope(f, inst, last) && prev <= last.order then last.order + 1 else prev
  }

  /** The reference definition is the least integer above every sibling order. */
  lemma {:induction false} NextAfterScopeIsNext(f: OrderField, inst: Instance, stored: seq<Record>)
    ensures IsNextAfter(ScopeOrders(f, inst, stored), NextAfterScope(f, inst, stored))
    decreases |stored|
  {
    if |stored| > 0 {
      NextAfterScopeIsNext(f, inst, stored[..|stored| - 1]);
    }
  }

  /** There is only one least integer above a set of orders. */
  lemma NextAfterUnique(orders: set<nat>, v: nat, w: nat)
    requires IsNextAfter(orders, v) && IsNextAfter(orders, w)
    ensures v == w
  {
  }

  // ---------------------------------------------------------------------------
  // The query: build the equality filter, apply it, take the latest order.
  // ---------------------------------------------------------------------------

  /** The keyword filter `{field: getattr(instance, field) for field in fs}`,
      read in list order: the first name that cannot be read raises. */
  function BuildQuery(fs: seq<FieldName>, inst: Instance): (r: Result<map<FieldName, Value>, Error>)
    ensures r.Ok? <==> ReadableBefore(fs, inst, |fs|)
    ensures r.Ok? ==> r.value.Keys == set k | k in fs
    ensures r.Ok? ==> forall k :: k in r.value ==> k in inst.attrs && r.value[k] == inst.attrs[k]
    ensures r.Err? ==> exists i :: 0 <= i < |fs| && ReadableBefore(fs, inst, i) && Raises(inst, fs[i], r.error)
  {
    if |fs| == 0 then Ok(map[])
    else if fs[0] !in inst.attrs then Err(AttributeError(fs[0]))
    else if inst.attrs[fs[0]] == Unset then Err(DoesNotExist)
    else
      match BuildQuery(fs[1..], inst)
      case Err(e) => Err(e)
      case Ok(q) => Ok(q[fs[0] := inst.attrs[fs[0]]])
  }

  /** A stored record satisfies every equality of the filter. */
  predicate Matches(q: map<FieldName, Value>, rec: Record)
  {
    forall k :: k in q ==> k in rec.attrs && rec.attrs[k] == q[k]
  }

  /** The records of `rs` that satisfy the filter, in table order. */
  function Filter(q: map<FieldName, Value>, rs: seq<Record>): (r: seq<Record>)
    ensures |r| <= |rs|
    ensures forall x :: x in r ==> x in rs && Matches(q, x)
    ensures forall x :: x in rs && Matches(q, x) ==> x in r
    ensures r == [] <==> forall x :: x in rs ==> !Matches(q, x)
  {
    if |rs| == 0 then []
    else (if Matches(q, rs[0]) then [rs[0]] else []) + Filter(q, rs[1..])
  }

  /** The largest order among a non-empty set of records. */
  function MaxOrder(rs: seq<Record>): (m: nat)
    requires |rs| > 0
    ensures exists i :: 0 <= i < |rs| && rs[i].order == m
    ensures forall i :: 0 <= i < |rs| ==> rs[i].order <= m
  {
    if |rs| == 1 then rs[0].order
    else
      var rest := MaxOrder(rs[1..]);
      if rs[0].order < rest then rest else rs[0].order
  }

  /** `latest(attname)` read back as the order it holds: the maximum order of
      the records, or None where the lookup raises ObjectDoesNotExist. */
  function LatestOrder(rs: seq<Record>): (r: Option<nat>)
    ensures r.None? <==> |rs| == 0
    ensures r.Some? ==> exists i :: 0 <= i < |rs| && rs[i].order == r.value
    ensures r.Some? ==> forall i :: 0 <= i < |rs| ==> rs[i].order <= r.value
  {
    if |rs| == 0 then None else Some(MaxOrder(rs))
  }

  /** The order given to a new member of `scope`: the latest plus one, or 0
      when the lookup finds nothing. */
  function NextOrder(scope: seq<Record>): (v: nat)
    ensures v == 0 <==> |scope| == 0
    ensures forall i :: 0 <= i < |scope| ==> scope[i].order < v
    ensures v > 0 ==> exists i :: 0 <= i < |scope| && scope[i].order == v - 1
  {
    match LatestOrder(scope)
    case None => 0
    case Some(m) => m + 1
  }

  /** The instance's siblings as the hook queries them: every stored record
      when no scope fields are configured, otherwise those matching the
      instance's own values for the scope fields. */
  function Scope(f: OrderField, inst: Instance, stored: seq<Record>): (r: Result<seq<Record>, Error>)
    ensures r.Ok? <==> ReadableBefore(ScopeFields(f), inst, |ScopeFields(f)|)
    ensures r.Ok? ==> forall x :: x in r.value ==> x in stored && InScope(f, inst, x)
    ensures r.Ok? ==> forall x :: x in stored && InScope(f, inst, x) ==> x in r.value
    ensures r.Ok? ==> (r.value == [] <==> forall x :: x in stored ==> !InScope(f, inst, x))
    // the error is raised by the first scope field that cannot be read
    ensures r.Err? ==> exists i :: 0 <= i < |ScopeFields(f)| && ReadableBefore(ScopeFields(f), inst, i)
                                  && Raises(inst, ScopeFields(f)[i], r.error)
  {
    var fs := ScopeFields(f);
    if |fs| > 0 then
      match BuildQuery(fs, inst)
      case Err(e) => Err(e)
      case Ok(q) =>
        assert forall x :: Matches(q, x) <==> InScope(f, inst, x) by {
          forall x ensures Matches(q, x) <==> InScope(f, inst, x) {
            if Matches(q, x) {
              forall k | k in fs ensures k in inst.attrs && k in x.attrs && x.attrs[k] == inst.attrs[k] {
                assert k in q;
              }
            }
          }
        }
        Ok(Filter(q, stored))
    else
      assert |stored| > 0 ==> stored[0] in stored;
      Ok(stored)
  }

  // ---------------------------------------------------------------------------
  // The save hook.
  // ---------------------------------------------------------------------------

  /** The hook run just before an instance is written: an order already set
      passes through untouched; an unset order becomes the next order of the
      instance's scope and is written into the instance as well as returned. */
  function PreSave(f: OrderField, inst: Instance, stored: seq<Record>): (r: Result<(Instance, nat), Error>)
    // an explicit value is used as-is and the instance is not changed
    ensures inst.order.Some? ==> r == Ok((inst, inst.order.value))
    // AttributeError escapes exactly when the first scope field that cannot
    // be read is missing (an unset relation read earlier is caught instead)
    ensures inst.order.None? ==>
              (r.Err? <==> exists i :: 0 <= i < |ScopeFields(f)| && ReadableBefore(ScopeFields(f), inst, i)
                                      && ScopeFields(f)[i] !in inst.attrs)
    ensures r.Err? ==> r.error.AttributeError? && r.error.name !in inst.attrs
                       && exists i :: 0 <= i < |ScopeFields(f)| && ReadableBefore(ScopeFields(f), inst, i)
                                      && ScopeFields(f)[i] == r.error.name
    ensures inst.order.None? && HasScopeFields(f, inst) ==> r.Ok?
    // the value written into the instance is the value returned
    ensures r.Ok? ==> r.value.0 == inst.(order := Some(r.value.1))
    // the value assigned: max + 1 over the siblings, or 0 without siblings
    ensures inst.order.None? && r.Ok? ==> IsNextAfter(ScopeOrders(f, inst, stored), r.value.1)
    ensures inst.order.None? && r.Ok? ==> (r.value.1 == 0 <==> ScopeOrders(f, inst, stored) == {})
    ensures inst.order.None? && r.Ok? ==> r.value.1 == NextAfterScope(f, inst, stored)
  {
    match inst.order
    case Some(v) => Ok((inst, v))
    case None =>
      match Scope(f, inst, stored)
      case Err(AttributeError(n)) => Err(AttributeError(n))
      case Err(DoesNotExist) =>
        // caught: `except ObjectDoesNotExist` gives 0
        UnsetScopeHasNoSiblings(f, inst, stored);
        Ok((inst.(order := Some(0)), 0))
      case Ok(scope) =>
        var v := NextOrder(scope);
        ScopeOrdersOfScope(f, inst, stored, scope, v);
        NextAfterScopeIsNext(f, inst, stored);
        NextAfterUnique(ScopeOrders(f, inst, stored), v, NextAfterScope(f, inst, stored));
        Ok((inst.(order := Some(v)), v))
  }

  /** Bridges the queried scope and the specification-level set of orders. */
  lemma ScopeOrdersOfScope(f: OrderField, inst: Instance, stored: seq<Record>, scope: seq<Record>, v: nat)
    requires forall x :: x in scope ==> x in stored && InScope(f, inst, x)
    requires forall x :: x in stored && InScope(f, inst, x) ==> x in scope
    requires v == NextOrder(scope)
    ensures IsNextAfter(ScopeOrders(f, inst, stored), v)
    ensures v == 0 <==> ScopeOrders(f, inst, stored) == {}
  {
    var orders := ScopeOrders(f, inst, stored);
    ScopeOrdersMembers(f, inst, stored);
    forall o | o in orders ensures o < v {
      var rec :| rec in stored && InScope(f, inst, rec) && rec.order == o;
      var i :| 0 <= i < |scope| && scope[i] == rec;
    }
    if v > 0 {
      var i :| 0 <= i < |scope| && scope[i].order == v - 1;
      assert scope[i] in stored && InScope(f, inst, scope[i]);
    }
  }

  /** An instance with an unreadable scope field has no siblings, so its
      next order is 0. */
  lemma UnsetScopeHasNoSiblings(f: OrderField, inst: Instance, stored: seq<Record>)
    requires !ReadableBefore(ScopeFields(f), inst, |ScopeFields(f)|)
    ensures ScopeOrders(f, inst, stored) == {}
    ensures NextAfterScope(f, inst, stored) == 0
  {
    ScopeOrdersMembers(f, inst, stored);
    NextAfterScopeIsNext(f, inst, stored);
  }

  /** Only one position of `fs` is the first that cannot be read. */
  lemma FirstUnreadableUnique(fs: seq<FieldName>, inst: Instance, i: int, j: int)
    requires 0 <= i < |fs| && ReadableBefore(fs, inst, i) && !(fs[i] in inst.attrs && inst.attrs[fs[i]] != Unset)
    requires 0 <= j < |fs| && ReadableBefore(fs, inst, j) && !(fs[j] in inst.attrs && inst.attrs[fs[j]] != Unset)
    ensures i == j
  {
  }
}

=== FILE: order_lemmas.dfy ===
/**
 * Properties of the order field across calls: repeating the hook, isolation
 * of scopes, and saving several instances one after another.
 */
module OrderLemmas {
  import opened Wrappers
  import opened Fields

  // ---------------------------------------------------------------------------
  // Saving: the hook's value becomes the order column of the written row.
  // ---------------------------------------------------------------------------

  /** Runs the hook and appends the written row to the table; yields the
      order the row was written with and the new table. */
  function Save(f: OrderField, inst: Instance, stored: seq<Record>): (r: Result<(nat, seq<Record>), Error>)
    ensures r.Ok? <==> PreSave(f, inst, stored).Ok?
    ensures r.Ok? ==> r.value.1 == stored + [Record(inst.attrs, r.value.0)]
    ensures inst.order.Some? ==> r.Ok? && r.value.0 == inst.order.value
    ensures inst.order.None? && r.Ok? ==> r.value.0 == NextAfterScope(f, inst, stored)
  {
    match PreSave(f, inst, stored)
    case Err(e) => Err(e)
    case Ok((saved, v)) => Ok((v, stored + [Record(saved.attrs, v)]))
  }

  /** Saves the instances one after another, each seeing the rows written
      before it; yields the orders written, in order, and the final table. */
  function SaveAll(f: OrderField, insts: seq<Instance>, stored: seq<Record>): Result<(seq<nat>, seq<Record>), Error>
    decreases |insts|
  {
    if |insts| == 0 then Ok(([], stored))
    else
      match Save(f, insts[0], stored)
      case Err(e) => Err(e)
      case Ok((v, next)) =>
        match SaveAll(f, insts[1..], next)
        case Err(e) => Err(e)
        case Ok((vs, final)) => Ok(([v] + vs, final))
  }

  /** Two instances agree on every scope field, and both can read it. */
  ghost predicate SameScope(f: OrderField, a: Instance, b: Instance)
  {
    forall k :: k in ScopeFields(f) ==>
      k in a.attrs && k in b.attrs && a.attrs[k] == b.attrs[k] && a.attrs[k] != Unset
  }

  // ---------------------------------------------------------------------------
  // The assigned value.
  // ---------------------------------------------------------------------------

  /** An automatically assigned order never collides with a sibling's. */
  lemma AutoOrderIsFresh(f: OrderField, inst: Instance, stored: seq<Record>)
    requires inst.order.None? && HasScopeFields(f, inst)
    ensures PreSave(f, inst, stored).Ok?
    ensures forall rec :: rec in stored && InScope(f, inst, rec) ==>
              rec.order < PreSave(f, inst, stored).value.1
  {
  }

  /** A second run of the hook on the instance it returned, against any table,
      returns the same value and leaves the instance as it is. */
  lemma PreSaveIdempotent(f: OrderField, inst: Instance, stored: seq<Record>, later: seq<Record>)
    requires PreSave(f, inst, stored).Ok?
    ensures PreSave(f, PreSave(f, inst, stored).value.0, later) == PreSave(f, inst, stored)
  {
  }

  // ---------------------------------------------------------------------------
  // Scope isolation.
  // ---------------------------------------------------------------------------

  /** The sibling orders of a concatenated table are those of its parts. */
  lemma {:induction false} ScopeOrdersConcat(f: OrderField, inst: Instance, a: seq<Record>, b: seq<Record>)
    ensures ScopeOrders(f, inst, a + b) == ScopeOrders(f, inst, a) + ScopeOrders(f, inst, b)
    decreases |b|
  {
    if |b| == 0 {
      assert a + b == a;
    } else {
      var init := b[..|b| - 1];
      ScopeOrdersConcat(f, inst, a, init);
      assert (a + b)[..|a + b| - 1] == a + init;
    }
  }

  /** Tables whose sibling orders agree give the same result: only records
      in the instance's scope influence the hook. */
  lemma SameSiblingOrdersSameResult(f: OrderField, inst: Instance, a: seq<Record>, b: seq<Record>)
    requires ScopeOrders(f, inst, a) == ScopeOrders(f, inst, b)
    ensures PreSave(f, inst, a) == PreSave(f, inst, b)
  {
  }

  /** Adding records of other scopes, before or after the existing ones,
      leaves the hook's result unchanged. */
  lemma OtherScopesIgnored(f: OrderField, inst: Instance, stored: seq<Record>, others: seq<Record>)
    requires forall rec :: rec in others ==> !InScope(f, inst, rec)
    ensures PreSave(f, inst, stored + others) == PreSave(f, inst, stored)
    ensures PreSave(f, inst, others + stored) == PreSave(f, inst, stored)
  {
    ScopeOrdersMembers(f, inst, others);
    assert ScopeOrders(f, inst, others) == {};
    ScopeOrdersConcat(f, inst, stored, others);
    ScopeOrdersConcat(f, inst, others, stored);
    SameSiblingOrdersSameResult(f, inst, stored + others, stored);
    SameSiblingOrdersSameResult(f, inst, others + stored, stored);
  }

  /** Changing records that lie outside the instance's scope, before and
      after the change, leaves the hook's result unchanged. */
  lemma OtherScopesChanged(f: OrderField, inst: Instance, a: seq<Record>, b: seq<Record>)
    requires |a| == |b|
    requires forall i :: 0 <= i < |a| ==>
               a[i] == b[i] || (!InScope(f, inst, a[i]) && !InScope(f, inst, b[i]))
    ensures PreSave(f, inst, a) == PreSave(f, inst, b)
  {
    ScopeOrdersMembers(f, inst, a);
    ScopeOrdersMembers(f, inst, b);
    forall o | o in ScopeOrders(f, inst, a) ensures o in ScopeOrders(f, inst, b) {
      var rec :| rec in a && InScope(f, inst, rec) && rec.order == o;
      var i :| 0 <= i < |a| && a[i] == rec;
      assert b[i] in b;
    }
    forall o | o in ScopeOrders(f, inst, b) ensures o in ScopeOrders(f, inst, a) {
      var rec :| rec in b && InScope(f, inst, rec) && rec.order == o;
      var i :| 0 <= i < |b| && b[i] == rec;
      assert a[i] in a;
    }
    SameSiblingOrdersSameResult(f, inst, a, b);
  }

  /** Without scope fields (omitted or empty), every stored record is a
      sibling: the query is the whole table and an automatic order lies
      above every stored order. */
  lemma NoScopeFieldsWholeTable(f: OrderField, inst: Instance, stored: seq<Record>)
    requires f.forFields.None? || f.forFields == Some([])
    ensures Scope(f, inst, stored) == Ok(stored)
    ensures forall rec :: InScope(f, inst, rec)
    ensures inst.order.None? ==>
              PreSave(f, inst, stored).Ok?
              && (forall rec :: rec in stored ==> rec.order < PreSave(f, inst, stored).value.1)
              && (PreSave(f, inst, stored).value.1 == 0 <==> |stored| == 0)
  {
  }

  /** An unset required relation read before any missing name raises
      DoesNotExist, which the hook catches: the order is 0 whatever the
      table holds, even if a later `for_fields` name does not exist. */
  lemma UnsetRelationGivesZero(f: OrderField, inst: Instance, stored: seq<Record>, i: nat)
    requires inst.order.None?
    requires i < |ScopeFields(f)| && ReadableBefore(ScopeFields(f), inst, i)
    requires ScopeFields(f)[i] in inst.attrs && inst.attrs[ScopeFields(f)[i]] == Unset
    ensures Scope(f, inst, stored) == Err(DoesNotExist)
    ensures PreSave(f, inst, stored) == Ok((inst.(order := Some(0)), 0))
  {
    var fs := ScopeFields(f);
    var r := Scope(f, inst, stored);
    assert !ReadableBefore(fs, inst, |fs|);
    var j :| 0 <= j < |fs| && ReadableBefore(fs, inst, j) && Raises(inst, fs[j], r.error);
    FirstUnreadableUnique(fs, inst, i, j);
  }

  /** Scoped by `course` and a name the model does not have: with the course
      unset, the hook stops at `course` and gives 0 instead of raising for
      the missing name. */
  lemma UnsetBeforeMissingName()
    ensures var f := OrderField(Some(["course", "typo"]));
            var inst := Instance(map["course" := Unset], None);
            PreSave(f, inst, []) == Ok((inst.(order := Some(0)), 0))
  {
    var inst := Instance(map["course" := Unset], None);
    UnsetRelationGivesZero(OrderField(Some(["course", "typo"])), inst, [], 0);
  }

  /** Instances that agree on the scope fields have the same siblings, hence
      the same sibling orders and the same next order. */
  lemma {:induction false} SameScopeSameSiblings(f: OrderField, a: Instance, b: Instance, stored: seq<Record>)
    requires SameScope(f, a, b)
    ensures HasScopeFields(f, a) && HasScopeFields(f, b)
    ensures forall rec :: InScope(f, a, rec) <==> InScope(f, b, rec)
    ensures ScopeOrders(f, a, stored) == ScopeOrders(f, b, stored)
    ensures NextAfterScope(f, a, stored) == NextAfterScope(f, b, stored)
    decreases |stored|
  {
    if |stored| > 0 {
      SameScopeSameSiblings(f, a, b, stored[..|stored| - 1]);
    }
  }

  // ---------------------------------------------------------------------------
  // Saving several records.
  // ---------------------------------------------------------------------------

  /** Saving one more sibling of `t` without an explicit order gives it the
      scope's next order `k`, and the scope's next order becomes `k + 1`. */
  lemma SaveNextSibling(f: OrderField, t: Instance, c: Instance, stored: seq<Record>, k: nat)
    requires c.order.None? && SameScope(f, c, t)
    requires NextAfterScope(f, t, stored) == k
    ensures Save(f, c, stored).Ok?
    ensures Save(f, c, stored).value.0 == k
    ensures NextAfterScope(f, t, Save(f, c, stored).value.1) == k + 1
  {
    SameScopeSameSiblings(f, c, t, stored);
    var next := Save(f, c, stored).value.1;
    assert next[..|next| - 1] == stored;
    assert InScope(f, t, next[|next| - 1]);
  }

  /** The run of `n` consecutive orders starting at `k`. */
  function Run(k: nat, n: nat): seq<nat>
    decreases n
  {
    if n == 0 then [] else [k] + Run(k + 1, n - 1)
  }

  /** The run holds `k`, `k + 1`, ..., `k + n - 1`. */
  lemma {:induction false} RunElements(k: nat, n: nat)
    ensures |Run(k, n)| == n
    ensures forall i :: 0 <= i < n ==> Run(k, n)[i] == k + i
    decreases n
  {
    if n > 0 {
      RunElements(k + 1, n - 1);
    }
  }

  /** A non-empty run is its first order followed by the run after it.
      A one-step unfolding, kept separate so that the induction in
      `SaveAllNumbersConsecutively` stays small; it states nothing new. */
  lemma RunCons(k: nat, n: nat)
    requires n > 0
    ensures Run(k, n) == [k] + Run(k + 1, n - 1)
  {
  }

  /** One step of `SaveAll`: the first instance is saved into `next`, then
      the rest are saved into `next`, yielding `rest`. A one-step unfolding,
      kept separate so that the induction in `SaveAllNumbersConsecutively`
      stays small; it states nothing new. */
  lemma SaveAllCons(f: OrderField, insts: seq<Instance>, stored: seq<Record>, v: nat,
                    next: seq<Record>, rest: Result<(seq<nat>, seq<Record>), Error>)
    requires |insts| > 0 && Save(f, insts[0], stored) == Ok((v, next))
    requires rest == SaveAll(f, insts[1..], next) && rest.Ok?
    ensures SaveAll(f, insts, stored) == Ok(([v] + rest.value.0, rest.value.1))
  {
  }

  /** Saving instances without an explicit order, all in one scope, numbers
      them consecutively from the scope's next order `k`. */
  lemma {:induction false} SaveAllNumbersConsecutively(f: OrderField, t: Instance, insts: seq<Instance>, stored: seq<Record>, k: nat)
    requires forall i :: 0 <= i < |insts| ==> insts[i].order.None? && SameScope(f, insts[i], t)
    requires NextAfterScope(f, t, stored) == k
    ensures SaveAll(f, insts, stored).Ok?
    ensures SaveAll(f, insts, stored).value.0 == Run(k, |insts|)
    ensures NextAfterScope(f, t, SaveAll(f, insts, stored).value.1) == k + |insts|
    decreases |insts|
  {
    if |insts| == 0 {
      assert SaveAll(f, insts, stored) == Ok(([], stored));
    } else {
      SaveNextSibling(f, t, insts[0], stored, k);
      var next := Save(f, insts[0], stored).value.1;
      SaveAllNumbersConsecutively(f, t, insts[1..], next, k + 1);
      var rest := SaveAll(f, insts[1..], next);
      SaveAllCons(f, insts, stored, k, next, rest);
      RunCons(k, |insts|);
    }
  }

  /** Into a scope with no records, N instances saved without an explicit
      order receive 0, 1, ..., N-1. */
  lemma SaveAllIntoEmptyScope(f: OrderField, t: Instance, insts: seq<Instance>, stored: seq<Record>)
    requires forall i :: 0 <= i < |insts| ==> insts[i].order.None? && SameScope(f, insts[i], t)
    requires ScopeOrders(f, t, stored) == {}
    ensures SaveAll(f, insts, stored).Ok?
    ensures |SaveAll(f, insts, stored).value.0| == |insts|
    ensures forall i :: 0 <= i < |insts| ==> SaveAll(f, insts, stored).value.0[i] == i
  {
    NextAfterScopeIsNext(f, t, stored);
    SaveAllNumbersConsecutively(f, t, insts, stored, 0);
    RunElements(0, |insts|);
  }

  /** After a record is saved with an explicit order `x`, an automatically
      ordered sibling is placed after it, and directly after it when `x` was
      at least every earlier sibling's order. */
  lemma ExplicitThenAuto(f: OrderField, e: Instance, s: Instance, stored: seq<Record>)
    requires e.order.Some? && s.order.None?
    requires SameScope(f, e, s)
    ensures Save(f, e, stored).Ok?
    ensures PreSave(f, s, Save(f, e, stored).value.1).Ok?
    ensures PreSave(f, s, Save(f, e, stored).value.1).value.1 > e.order.value
    ensures (forall o :: o in ScopeOrders(f, s, stored) ==> o <= e.order.value) ==>
              PreSave(f, s, Save(f, e, stored).value.1).value.1 == e.order.value + 1
  {
    var x := e.order.value;
    var next := Save(f, e, stored).value.1;
    SameScopeSameSiblings(f, e, s, stored);
    assert next[..|next| - 1] == stored;
    assert InScope(f, s, next[|next| - 1]);
    NextAfterScopeIsNext(f, s, stored);
  }

  /** Records scoped by a `course` attribute: two records saved for course 1
      without an order get 0 and 1; a record then saved for course 2 gets 0,
      its scope being empty. */
  lemma TwoScopesScenario()
    ensures var f := OrderField(Some(["course"]));
            var a := Instance(map["course" := RefValue(1)], None);
            var b := Instance(map["course" := RefValue(2)], None);
            var m1 := Record(a.attrs, 0);
            var m2 := Record(a.attrs, 1);
            && Save(f, a, []) == Ok((0, [m1]))
            && Save(f, a, [m1]) == Ok((1, [m1, m2]))
            && Save(f, b, [m1, m2]) == Ok((0, [m1, m2, Record(b.attrs, 0)]))
  {
    var f := OrderField(Some(["course"]));
    var a := Instance(map["course" := RefValue(1)], None);
    var b := Instance(map["course" := RefValue(2)], None);
    var m1 := Record(a.attrs, 0);
    var m2 := Record(a.attrs, 1);
    assert InScope(f, a, m1) && InScope(f, a, m2);
    assert !InScope(f, b, m1) && !InScope(f, b, m2) by {
      assert "course" in ScopeFields(f);
    }
    assert HasScopeFields(f, a) && HasScopeFields(f, b);
    assert [m1][..0] == [] && [m1, m2][..1] == [m1];
    assert NextAfterScope(f, a, [m1]) == 1;
    assert NextAfterScope(f, b, [m1]) == 0;
    assert NextAfterScope(f, b, [m1, m2]) == 0;
    assert [] + [m1] == [m1] && [m1] + [m2] == [m1, m2];
    assert [m1, m2] + [Record(b.attrs, 0)] == [m1, m2, Record(b.attrs, 0)];
  }
}

=== FILE: wrappers.dfy ===
/** The `Option` and `Result` datatypes used by the order-field model. */
module Wrappers {

  /** An optional value: Python's `None` or a present value. */
  datatype Option<+T> = None | Some(value: T)

  /** The outcome of an operation that may raise: a value, or the error it raised. */
  datatype Result<+T, +E> = Ok(value: T) | Err(error: E)
}
